=== FILE: README.md ===
# ShoreSquad front-end: decision core in Dafny

ShoreSquad is a browser front-end for organising beach cleanups. Its controller class
(`ShoreSquadApp`, in two near-identical versions `js/app.js` and `js/app-optimized.js`)
wires the page, loads a fixed list of sample events and cleanup spots, lazily initialises
a map and a weather widget, and lets a visitor join events and suggest spots. This project
models the part of that controller that takes decisions, as pure functions over immutable
data:

- `Text` — `toLowerCase` (ASCII letters) and `includes` as a scan, proved equal to
  "the pattern occurs at some index".
- `Weather` — the records built from the 24-hour forecast. It has the `Math.round`
  midpoint that gives the current temperature, the emoji shown beside a condition text, and
  the five-way beach-cleanup recommendation. Each classifier is specified declaratively: the
  answer is the first rule, in source order, whose test passes.
- `Simulation` — the simple version's simulated reading. Each `Math.random()` draw is a
  parameter in [0, 1).
- `Notices`, `Events` — notices, the event and spot records, the sample data, and
  `joinEvent`.
- `App` — the controller as a state machine. The state is the two lazy-loading latches
  (`isMapLoaded`, `isWeatherLoaded`) plus the event list. The inputs are the page's
  callbacks. The output is the ordered list of side effects requested: initialise map,
  initialise weather, scroll, re-render, show a notice. `Run` folds any sequence of
  callbacks. Its contract says each initialiser runs exactly once if its latch went from
  open to closed, and never otherwise.

The latch code and `joinEvent` are the same in both source files. `js/app.js` has them at
lines 53-58, 68-73, 271-278 and 332-339. `js/app-optimized.js` has them at lines 55-58,
68-73, 422-429 and 483-490. Each is modelled once; the table cites one of the two copies.

Weather activation has only the two click paths the code registers (js/app.js:68-73,
271-278). The simple version's simulated reading is modelled as written, next to the
optimized version's records.

## Model

| member | source | states |
|---|---|---|
| Text.Includes | js/app-optimized.js:309-313 | `s.includes(p)` written as a left-to-right scan holds exactly when `p` occurs in `s` at some index |
| Text.Lower | js/app-optimized.js:390 | each character of `toLowerCase`'s result is the input character or its other-case form, and none is an upper-case letter |
| Text.SameUpToCaseLower | js/app-optimized.js:390 | two strings lower-case to the same text exactly when, at every position, they hold the same character or the two case forms of one letter |
| Weather.JsRound | js/app-optimized.js:258 | `Math.round(x)` is the integer `n` with `x - 1/2 < n <= x + 1/2`: the nearest integer, with a half rounded up |
| Weather.RoundedMidpoint | js/app-optimized.js:258 | `Math.round((low+high)/2)` equals `floor((low+high+1)/2)`; twice it exceeds `low+high` by 0 or 1 (half rounds up); it lies in `[low, high]` when `low <= high` |
| Weather.CurrentFromGeneral | js/app-optimized.js:256-276 | the current-weather record keeps the bounds, condition, humidity and wind of the forecast block; its current temperature is the rounded midpoint and stays within the bounds |
| Weather.WeatherEmoji | js/app-optimized.js:307-315 | the emoji is the first in the order thunder, rain/shower, cloudy, partly cloudy, sunny/clear, default whose test the lower-cased condition passes |
| Weather.WeatherEmojiIsFirstMatch | js/app-optimized.js:307-315 | conversely, any emoji that is such a first match is the one the classifier returns |
| Weather.PartlyCloudyUnreachable | js/app-optimized.js:311-312 | no condition text gets the partly-cloudy glyph, because a text containing "partly cloudy" already contains "cloudy" |
| Weather.PartlyCloudyExample | js/app-optimized.js:311-312 | "Partly Cloudy" gets the plain cloud as written and the partly-cloudy glyph with the tests reordered |
| Weather.IntendedWeatherEmoji | js/app-optimized.js:307-315 | with "partly cloudy" checked before "cloudy", the emoji is the first match in that order |
| Weather.IntendedWeatherEmojiShowsPartlyCloudy | js/app-optimized.js:311-312 | reordered, the partly-cloudy glyph appears exactly for texts with "partly cloudy" and no thunder, rain or shower; every text that does not get it (and every text without "partly cloudy") gets the same emoji as before |
| Weather.Advise | js/app-optimized.js:389-404 | the recommendation is the first in the order storm (thunder or heavy rain), rain/shower, wind above 25, sunny/partly cloudy, default whose test the lower-cased condition and high wind speed pass |
| Weather.AdviseIsFirstMatch | js/app-optimized.js:393-403 | conversely, any recommendation that is such a first match is the one returned |
| Weather.BeachRecommendation | js/app-optimized.js:389-404 | the returned text is always one of the five fixed messages, namely the message of the first matching rule |
| Weather.AdviceMessageRoundTrip | js/app-optimized.js:394-402 | each of the five messages reads back as the recommendation that produced it |
| Weather.MessagesDistinct | js/app-optimized.js:394-402 | two recommendations have the same text exactly when they are the same recommendation |
| Weather.StormWarningWhateverWind | js/app-optimized.js:393-394 | a condition containing "thunder" or "heavy rain" gets the storm warning at any wind speed |
| Weather.RainOutranksWind | js/app-optimized.js:395-396 | otherwise a condition containing "rain" or "shower" gets the rain caution even when the high wind exceeds 25 |
| Weather.HeavyRainContainsRain | js/app-optimized.js:393-395 | a condition containing "heavy rain" contains "rain", so when the rain test fails the heavy-rain half of the storm test fails too |
| Weather.DryWeatherAdvice | js/app-optimized.js:397-403 | with no thunder, rain or shower, wind above 25 gives the wind note; at 25 or below, the fair-weather message is given exactly for "sunny" or "partly cloudy" |
| Weather.AdviseIgnoresForecast | js/app-optimized.js:391 | the forecast argument never changes the recommendation |
| Weather.AdviseIgnoresCase | js/app-optimized.js:390 | conditions differing only in letter case, with the same high wind, get the same recommendation |
| Weather.ThunderstormsExample | js/app-optimized.js:393-394 | "Thunderstorms" gets the storm warning at any wind |
| Weather.SunnyButWindyExample | js/app-optimized.js:397-398 | "Sunny" with high wind above 25 gets the wind note, not the fair-weather message |
| Simulation.Scaled | js/app.js:247 | `Math.floor(r * span + base)` for a draw `r` in [0,1) lies in `[base, base + span)` |
| Simulation.SimulatedReading | js/app.js:242-253 | with each draw in [0,1), temperature is in [18,27], the condition is "Sunny", "Partly Cloudy" or "Overcast", wind speed is in [8,23] and humidity in [50,79] |
| Simulation.EveryReadingReachable | js/app.js:247-250 | the ranges are exact: every combination of values in them is produced by some draws |
| Events.SampleSpots | js/app.js:282-286 | three spots with distinct names, each with priority "high", "medium" or "low" |
| Events.SampleEvents | js/app.js:289-304 | two events with distinct ids, non-negative participant counts and future dates |
| Events.FindEvent | js/app-optimized.js:484 | `find` returns the position of the first event with the id, and nothing exactly when no event has it |
| Events.JoinEvent | js/app-optimized.js:483-490 | the first event with the id gains exactly one participant, everything else is unchanged, and a success notice names it; a missing id changes nothing and shows nothing |
| Events.JoinAddsOne | js/app-optimized.js:486 | a join raises the total participant count by one when the id exists and by zero otherwise |
| Events.JoinPreservesShape | js/app.js:332-336 | a join keeps the list's length, order, ids and titles, never lowers a count, and keeps ids distinct |
| Events.JoinByIdOfEvent | js/app.js:333-335 | with distinct ids, joining by an event's id changes exactly that event |
| Events.JoinNoticeNamesEvent | js/app-optimized.js:488 | the join notice is a success notice that quotes the joined event's title verbatim |
| App.Startup | js/app.js:280-305 | after start-up both latches are open and the event list is exactly the two sample events, whose ids are distinct |
| App.ObserveMap | js/app-optimized.js:53-61 | one observer callback initialises the map exactly when the latch was open and some entry intersects, and at most once however many entries intersect |
| App.ShowWeatherInfo | js/app-optimized.js:422-429 | the first call closes the weather latch, changes nothing else and requests only the weather initialisation; every later call leaves the state alone and only scrolls to the widget |
| App.SpotSuggestion | js/app.js:341-346 | a notice appears exactly when the prompt returned a non-empty name, and it quotes that name verbatim |
| App.HandleQuickAction | js/app-optimized.js:136-150 | "check-weather" initialises the weather the first time and scrolls to it afterwards; "find-events" only scrolls to the events; "suggest-spot" changes no state and shows one success notice quoting the answer when it is a non-empty name, and nothing otherwise; any other action does nothing; no action touches the map latch or the events |
| App.Join | js/app.js:332-339 | a click for an unknown id changes nothing and shows nothing; otherwise the first event with that id gains one participant, every other event is unchanged, and the effects are a re-render followed by the join notice naming that event; both latches are left alone |
| App.Step | js/app-optimized.js:110-150 | every callback keeps both latches closed once closed and runs an initialiser exactly when it closes that latch; ids are kept and each re-render is one new participant |
| App.Run | js/app.js:49-75 | over any sequence of callbacks, each initialiser runs exactly once if its latch went from open to closed, and never otherwise; ids are kept and the participant total grows by the number of re-renders |
| App.InitializersRunAtMostOnce | js/app-optimized.js:49-75 | over any sequence of callbacks the map and the weather widget are each initialised at most once, and never if already loaded |
| App.WeatherButtonClickEffects | js/app-optimized.js:66-73 | one click on the weather button runs two listeners, yet initialises the widget only on the first click; every later click only scrolls to it |
| App.WeatherLoadedOnlyScrolls | js/app.js:271-278 | once the weather is loaded, the quick action only scrolls and the lazy-loading listener does nothing |
| App.WeatherButtonOpensLatch | js/app-optimized.js:67-72 | while the weather is not loaded, the lazy-loading listener on its own initialises it once and closes the latch, changing nothing else |
| App.PlainButtons | js/app-optimized.js:112-124 | "Get Started" only scrolls to the map; "Join Crew" only shows the info notice "Feature coming soon! Join our newsletter for updates."; neither changes the state |
| App.JoinMissIsNoOp | js/app.js:333-334 | a join click for an unknown id changes nothing and shows no notice |
| App.JoinHitEffects | js/app.js:333-337 | as a whole callback, a join click for a known id gives the first event with that id one more participant and leaves the rest unchanged; it re-renders and then shows the join notice naming that event, and the total rises by one |
| App.RunKeepsIdsDistinct | js/app.js:289-304 | event ids, distinct after loading, stay distinct over any sequence of callbacks |

## Left out

- Text.Lower: lower-cases ASCII letters only. JavaScript's `toLowerCase` also maps non-ASCII letters, and a few change length. The classification is unaffected. Only two non-ASCII characters lower-case into ASCII: U+0130 becomes "i" followed by U+0307, and U+212A (Kelvin sign) becomes "k". No searched pattern contains "k", and every "i" in a pattern ("rain", "heavy rain") is followed by "n". So neither character can take part in a match in either version.
- Rendering: `renderEvents`, both `updateWeatherDisplay` versions, `showWeatherLoading`, the markers and popups of `addCleanupSpots`, and the notice element (`showMessage`, `createMessageContainer`, the 5-second removal). These only write markup. The model outputs the notice or the re-render as an effect.
- Map construction: `initializeMap` and `loadScript` call the Leaflet library and load a script. They appear only as the `InitializeMap` effect.
- Weather fetching: the two `fetch` calls, their JSON field extraction and the `Promise.all` join in `initializeWeather` are network I/O. The records are taken as already parsed, and initialisation appears only as the `InitializeWeather` effect. The `periods` list, which is passed through unused, is not kept. The update timestamp is kept as text.
- Start-up sequencing: the `init` try/catch, the 100 ms delay in `loadCriticalContent`, and the fact that the lazy-loading listeners exist only after that delay. `App.Run` accepts every order of callbacks, which includes orders the page cannot produce, so its guarantees cover the real orders too.
- Navigation: `initializeNavigation`, `scrollToSection` and the header-offset arithmetic read page layout. Scrolling appears only as the `ScrollTo` effect.
- Simulation.Scaled: the draw and the product are exact reals, so `v < base + span` holds only in exact arithmetic. In IEEE doubles `r = 1 - 2^-52` with span 10 and base 18 gives `Math.floor(r*10+18) == 28`.
- Simulation.SimulatedReading: the draws are exact reals, so the stated ranges and their exactness hold only in exact arithmetic. In IEEE double arithmetic a draw just below 1 rounds up. With the largest draw of a 52-bit generator, 1 - 2^-52, `Math.floor(r*10+18)` is 28 and `Math.floor(r*30+50)` is 80. With 1 - 2^-53, `Math.floor(r*16+8)` is also 24. Simulation.EveryReadingReachable is stated in the same exact arithmetic.
- Time and randomness: `Date` values are replaced. An event's date becomes its offset in days (7 and 14), and `Math.random()` becomes a draw parameter. Floating-point arithmetic is modelled as exact real arithmetic. Temperatures and wind speeds are integers.
- `prompt()` becomes a parameter: the text entered, or `None` when the prompt is cancelled. Console logging, including the unknown-action log, has no effect in the model.

## Findings

| source | as written | input that shows it | evidently intended | confidence | as-written member | corrected member |
|---|---|---|---|---|---|---|
| js/app-optimized.js:311-312 | the "cloudy" test runs before the "partly cloudy" test, so the ⛅ branch can never be reached | condition "Partly Cloudy" is shown with ☁️ | test "partly cloudy" first, so partly cloudy conditions get ⛅ | medium, not executed | Weather.PartlyCloudyUnreachable | Weather.IntendedWeatherEmojiShowsPartlyCloudy |

`Weather.WeatherEmoji` models the classifier as written. `Weather.IntendedWeatherEmoji`
is the corrected order. The rest of the model does not depend on the emoji.

=== FILE: app.dfy ===
/**
 The application controller as a state machine. Its state is the two lazy-loading
 latches (`isMapLoaded`, `isWeatherLoaded`) and the event list; its inputs are the UI
 callbacks; its outputs are the side effects it requests, in order. Map and weather
 initialisation, scrolling and rendering are effects, not modelled further.
 */
module App {
  import opened Optional
  import opened Notices
  import opened Events

  datatype State = State(mapLoaded: bool, weatherLoaded: bool, events: seq<Event>)

  /** One callback run by the page. */
  datatype Trigger =
    | MapVisibility(entries: seq<bool>)                    // an IntersectionObserver callback: isIntersecting per entry
    | WeatherButton                                         // the lazy-loading click listener on the weather button
    | QuickAction(action: string, answer: Option<string>)  // a [data-action] button; `answer` is what prompt() returns
    | JoinClick(id: int)                                    // an event card's "Join Event" button
    | GetStarted                                            // the call-to-action button
    | JoinCrew                                              // the "Join Crew" button

  /** A side effect the controller requests. */
  datatype Effect =
    | InitializeMap
    | InitializeWeather
    | ScrollTo(selector: string)
    | RenderEvents
    | Show(notice: Notice)

  datatype Outcome = Outcome(state: State, effects: seq<Effect>)

  /** The state right after start-up: both latches open, the sample events loaded. */
  function Startup(): (s: State)
    ensures !s.mapLoaded && !s.weatherLoaded
    ensures DistinctIds(s.events) && |s.events| == 2
    ensures s.events == SampleEvents()
  {
    State(false, false, SampleEvents())
  }

  /** The map latch and the effects of one observer callback. */
  datatype Latched = Latched(loaded: bool, effects: seq<Effect>)

  /**
   The observer callback: for each entry in turn, an intersecting entry while the map is
   not loaded initialises it and closes the latch. The map is initialised at most once
   per callback, and exactly when the latch was open and some entry intersects.
   */
  function ObserveMap(loaded: bool, entries: seq<bool>): (r: Latched)
    ensures r.loaded == (loaded || true in entries)
    ensures multiset(r.effects)[InitializeMap] == (if !loaded && true in entries then 1 else 0)
    ensures forall i :: 0 <= i < |r.effects| ==> r.effects[i] == InitializeMap
    decreases |entries|
  {
    if entries == [] then
      Latched(loaded, [])
    else
      assert entries == [entries[0]] + entries[1..];
      if entries[0] && !loaded then
        var rest := ObserveMap(true, entries[1..]);
        Latched(rest.loaded, [InitializeMap] + rest.effects)
      else
        ObserveMap(loaded, entries[1..])
  }

  /** `showWeatherInfo`: the first call initialises the weather widget, later calls scroll to it. */
  function ShowWeatherInfo(s: State): (o: Outcome)
    ensures o.state.weatherLoaded
    ensures !s.weatherLoaded ==> o.state == s.(weatherLoaded := true) && o.effects == [InitializeWeather]
    ensures s.weatherLoaded ==> o.state == s && o.effects == [ScrollTo(".weather-widget")]
  {
    if !s.weatherLoaded then Outcome(s.(weatherLoaded := true), [InitializeWeather])
    else Outcome(s, [ScrollTo(".weather-widget")])
  }

  const SuggestPrefix := "Thanks for suggesting \""
  const SuggestSuffix := "\"! Our team will review it."

  /**
   `showSpotSuggestion` after `prompt` returned `answer` (`None` for a cancelled prompt):
   a non-empty name is acknowledged with a notice quoting it; otherwise nothing is shown.
   */
  function SpotSuggestion(answer: Option<string>): (n: Option<Notice>)
    ensures n.Some? <==> answer.Some? && answer.value != ""
    ensures n.Some? ==> n.value.kind == Success && Unframed(n.value.text, SuggestPrefix, SuggestSuffix) == answer
  {
    match answer
    case Some(name) =>
      if name != "" then
        FramedRoundTrip(SuggestPrefix, name, SuggestSuffix);
        Some(Notice(Framed(SuggestPrefix, name, SuggestSuffix), Success))
      else None
    case None => None
  }

  /** The effects of a notice that may or may not be shown. */
  function ShowIfAny(n: Option<Notice>): (effects: seq<Effect>)
    ensures effects == [] <==> n.None?
    ensures |effects| <= 1
    ensures forall i :: 0 <= i < |effects| ==> effects[i] == Show(n.value)
  {
    match n
    case Some(notice) => [Show(notice)]
    case None => []
  }

  /**
   `handleQuickAction(action)`: "check-weather" shows the weather, "find-events" scrolls to
   the events, "suggest-spot" acknowledges a non-empty suggestion; any other action is only
   logged.
   */
  function HandleQuickAction(s: State, action: string, answer: Option<string>): (o: Outcome)
    ensures o.state.events == s.events && o.state.mapLoaded == s.mapLoaded
    ensures LatchStep(s, o) && RenderEvents !in o.effects
    ensures action == "check-weather" && !s.weatherLoaded ==>
              o == Outcome(s.(weatherLoaded := true), [InitializeWeather])
    ensures action == "check-weather" && s.weatherLoaded ==> o == Outcome(s, [ScrollTo(".weather-widget")])
    ensures action == "find-events" ==> o == Outcome(s, [ScrollTo("#events")])
    ensures action == "suggest-spot" ==>
              && o.state == s
              && |o.effects| <= 1
              && (o.effects != [] <==> answer.Some? && answer.value != "")
              && forall i :: 0 <= i < |o.effects| ==>
                   o.effects[i].Show? && o.effects[i].notice.kind == Success
                   && Unframed(o.effects[i].notice.text, SuggestPrefix, SuggestSuffix) == answer
    ensures action !in {"check-weather", "find-events", "suggest-spot"} ==> o == Outcome(s, [])
  {
    if action == "check-weather" then ShowWeatherInfo(s)
    else if action == "find-events" then Outcome(s, [ScrollTo("#events")])
    else if action == "suggest-spot" then Outcome(s, ShowIfAny(SpotSuggestion(answer)))
    else Outcome(s, [])
  }

  /** `joinEvent(id)`: a successful join re-renders the list and then shows its notice. */
  function Join(s: State, id: int): (o: Outcome)
    ensures o.state.mapLoaded == s.mapLoaded && o.state.weatherLoaded == s.weatherLoaded
    ensures LatchStep(s, o) && EventsStep(s, o)
    ensures !HasId(s.events, id) ==> o == Outcome(s, [])
    ensures forall k :: FirstWithId(s.events, id, k) ==>
              && JoinedAt(s.events, o.state.events, k)
              && o.effects == [RenderEvents, Show(JoinNotice(s.events[k].title))]
  {
    JoinAddsOne(s.events, id);
    JoinPreservesShape(s.events, id);
    var j := JoinEvent(s.events, id);
    match j.notice
    case Some(n) => Outcome(s.(events := j.events), [RenderEvents, Show(n)])
    case None => Outcome(s, [])
  }

  /** The latch invariant of one step: a latch never reopens, and its initialiser runs exactly when it closes. */
  predicate LatchStep(s: State, o: Outcome)
  {
    && (s.mapLoaded ==> o.state.mapLoaded)
    && (s.weatherLoaded ==> o.state.weatherLoaded)
    && multiset(o.effects)[InitializeMap] == (if !s.mapLoaded && o.state.mapLoaded then 1 else 0)
    && multiset(o.effects)[InitializeWeather] == (if !s.weatherLoaded && o.state.weatherLoaded then 1 else 0)
  }

  /** The event invariant of one step: ids and order are kept, and each re-render is one new participant. */
  predicate EventsStep(s: State, o: Outcome)
  {
    && Ids(o.state.events) == Ids(s.events)
    && TotalParticipants(o.state.events) == TotalParticipants(s.events) + multiset(o.effects)[RenderEvents]
  }

  /** The notice the "Join Crew" button shows. */
  const ComingSoon: Notice := Notice("Feature coming soon! Join our newsletter for updates.", Info)

  /** One callback. */
  function Step(s: State, t: Trigger): (o: Outcome)
    ensures LatchStep(s, o)
    ensures EventsStep(s, o)
  {
    match t
    case MapVisibility(entries) =>
      var r := ObserveMap(s.mapLoaded, entries);
      Outcome(s.(mapLoaded := r.loaded), r.effects)
    case WeatherButton =>
      if !s.weatherLoaded then Outcome(s.(weatherLoaded := true), [InitializeWeather])
      else Outcome(s, [])
    case QuickAction(action, answer) =>
      HandleQuickAction(s, action, answer)
    case JoinClick(id) =>
      Join(s, id)
    case GetStarted =>
      Outcome(s, [ScrollTo("#map")])
    case JoinCrew =>
      Outcome(s, [Show(ComingSoon)])
  }

  /**
   The callbacks `ts` in order. Over any sequence, each initialiser runs at most once:
   exactly once if its latch was open at the start and closed at the end, never otherwise.
   */
  function Run(s: State, ts: seq<Trigger>): (o: Outcome)
    ensures LatchStep(s, o)
    ensures EventsStep(s, o)
    decreases |ts|
  {
    if ts == [] then
      Outcome(s, [])
    else
      var first := Step(s, ts[0]);
      var rest := Run(first.state, ts[1..]);
      Outcome(rest.state, first.effects + rest.effects)
  }

  /** Whatever callbacks arrive, the map and the weather widget are each initialised at most once. */
  lemma InitializersRunAtMostOnce(s: State, ts: seq<Trigger>)
    ensures multiset(Run(s, ts).effects)[InitializeMap] <= 1
    ensures multiset(Run(s, ts).effects)[InitializeWeather] <= 1
    ensures s.mapLoaded ==> InitializeMap !in Run(s, ts).effects
    ensures s.weatherLoaded ==> InitializeWeather !in Run(s, ts).effects
  {
  }

  /** The triggers one click on the weather button fires: the quick-action listener, then the lazy-loading one. */
  const WeatherButtonClick: seq<Trigger> := [QuickAction("check-weather", None), WeatherButton]

  /**
   The first click on the weather button initialises the widget once, although two
   listeners react to it; every later click only scrolls to the widget.
   */
  lemma WeatherButtonClickEffects(s: State)
    ensures var o := Run(s, WeatherButtonClick);
      && o.state == s.(weatherLoaded := true)
      && o.effects == (if s.weatherLoaded then [ScrollTo(".weather-widget")] else [InitializeWeather])
  {
    var first := Step(s, WeatherButtonClick[0]);
    assert first == ShowWeatherInfo(s);
    assert WeatherButtonClick[1..] == [WeatherButton];
    assert Run(first.state, [WeatherButton]).effects == Step(first.state, WeatherButton).effects + [];
  }

  /** Once the weather widget is loaded, neither weather listener initialises it again. */
  lemma WeatherLoadedOnlyScrolls(s: State, answer: Option<string>)
    requires s.weatherLoaded
    ensures Step(s, QuickAction("check-weather", answer)) == Outcome(s, [ScrollTo(".weather-widget")])
    ensures Step(s, WeatherButton) == Outcome(s, [])
  {
  }

  /**
   While the weather latch is open, the lazy-loading listener on its own (as when the
   quick-action listener sees another action) initialises the widget and closes the latch.
   */
  lemma WeatherButtonOpensLatch(s: State)
    requires !s.weatherLoaded
    ensures Step(s, WeatherButton) == Outcome(s.(weatherLoaded := true), [InitializeWeather])
  {
  }

  /** "Get Started" only scrolls to the map; "Join Crew" only shows the coming-soon notice. */
  lemma PlainButtons(s: State)
    ensures Step(s, GetStarted) == Outcome(s, [ScrollTo("#map")])
    ensures Step(s, JoinCrew) == Outcome(s, [Show(ComingSoon)])
    ensures ComingSoon.kind == Info
  {
  }

  /** A join click for an id no event has changes nothing and shows nothing. */
  lemma JoinMissIsNoOp(s: State, id: int)
    requires !HasId(s.events, id)
    ensures Step(s, JoinClick(id)) == Outcome(s, [])
  {
  }

  /**
   A join click for an existing id gives the first event with that id one more participant,
   re-renders the list and shows the join notice naming that event.
   */
  lemma JoinHitEffects(s: State, id: int)
    requires HasId(s.events, id)
    ensures var o := Step(s, JoinClick(id));
      && |o.effects| == 2 && o.effects[0] == RenderEvents && o.effects[1].Show?
      && TotalParticipants(o.state.events) == TotalParticipants(s.events) + 1
      && forall k :: FirstWithId(s.events, id, k) ==>
           && JoinedAt(s.events, o.state.events, k)
           && o.effects[1] == Show(JoinNotice(s.events[k].title))
  {
  }

  /** Distinct event ids stay distinct over any sequence of callbacks. */
  lemma RunKeepsIdsDistinct(s: State, ts: seq<Trigger>)
    requires DistinctIds(s.events)
    ensures DistinctIds(Run(s, ts).state.events)
  {
    var after := Run(s, ts).state.events;
    assert Ids(after) == Ids(s.events);
    forall i, j | 0 <= i < j < |after|
      ensures after[i].id != after[j].id
    {
      assert Ids(after)[i] == Ids(s.events)[i] && Ids(after)[j] == Ids(s.events)[j];
    }
  }
}

=== FILE: events.dfy ===
/**
 The in-memory data the front-end loads at start-up and the one mutation on it:
 joining an event (`joinEvent`, identical in js/app.js and js/app-optimized.js).
 */
module Events {
  import opened Optional
  import opened Notices

  /** A cleanup event; `daysAhead` stands for its date, given as days after loading. */
  datatype Event = Event(id: int, title: string, daysAhead: int, participants: int, location: string)

  /** A cleanup spot shown as a map marker. */
  datatype CleanupSpot = CleanupSpot(lat: real, lng: real, name: string, priority: string, description: string)

  /** The priority labels a spot may carry. */
  const Priorities: set<string> := {"high", "medium", "low"}

  /** The spots `loadSampleData` installs. */
  function SampleSpots(): (spots: seq<CleanupSpot>)
    ensures |spots| == 3
    ensures forall i :: 0 <= i < |spots| ==> spots[i].priority in Priorities
    ensures forall i, j :: 0 <= i < j < |spots| ==> spots[i].name != spots[j].name
  {
    [ CleanupSpot(40.7589, -73.9851, "Central Park Lake", "high", "Monthly cleanup event"),
      CleanupSpot(40.6892, -74.0445, "Brooklyn Bridge Park", "medium", "Weekly volunteer cleanup"),
      CleanupSpot(40.5795, -74.1502, "Staten Island Beach", "low", "Weekend cleanup scheduled") ]
  }

  /** No two events share an id. */
  predicate DistinctIds(events: seq<Event>)
  {
    forall i, j :: 0 <= i < j < |events| ==> events[i].id != events[j].id
  }

  /** The events `loadSampleData` installs, one and two weeks ahead. */
  function SampleEvents(): (events: seq<Event>)
    ensures |events| == 2
    ensures DistinctIds(events)
    ensures forall i :: 0 <= i < |events| ==> events[i].participants >= 0 && events[i].daysAhead > 0
  {
    [ Event(1, "Brooklyn Bridge Park Cleanup", 7, 24, "Brooklyn Bridge Park"),
      Event(2, "Central Park Lake Restoration", 14, 18, "Central Park") ]
  }

  /** The ids of the events, in list order. */
  function Ids(events: seq<Event>): (ids: seq<int>)
    ensures |ids| == |events|
    ensures forall i :: 0 <= i < |events| ==> ids[i] == events[i].id
  {
    seq(|events|, i requires 0 <= i < |events| => events[i].id)
  }

  /** Some event has this id. */
  predicate HasId(events: seq<Event>, id: int)
  {
    exists i :: 0 <= i < |events| && events[i].id == id
  }

  /** `k` is the position of the first event with this id. */
  predicate FirstWithId(events: seq<Event>, id: int, k: int)
  {
    0 <= k < |events| && events[k].id == id && forall j :: 0 <= j < k ==> events[j].id != id
  }

  /** `events.find(e => e.id === id)`, as the position of the match. */
  function FindEvent(events: seq<Event>, id: int): (r: Option<nat>)
    ensures r.Some? ==> FirstWithId(events, id, r.value)
    ensures r.None? <==> !HasId(events, id)
    decreases |events|
  {
    if |events| == 0 then None
    else if events[0].id == id then Some(0)
    else
      match FindEvent(events[1..], id)
      case None =>
        assert forall j :: 1 <= j < |events| ==> events[j].id == events[1..][j - 1].id;
        None
      case Some(k) =>
        assert forall j :: 1 <= j <= k ==> events[j].id == events[1..][j - 1].id;
        Some(k + 1)
  }

  /** `after` is `before` with one more participant at position `k` and nothing else changed. */
  predicate JoinedAt(before: seq<Event>, after: seq<Event>, k: int)
  {
    && |after| == |before|
    && 0 <= k < |before|
    && after[k] == before[k].(participants := before[k].participants + 1)
    && forall j :: 0 <= j < |before| && j != k ==> after[j] == before[j]
  }

  /** A join at `k` is the sequence update at `k`. */
  lemma JoinedAtIsUpdate(before: seq<Event>, after: seq<Event>, k: int)
    requires JoinedAt(before, after, k)
    ensures after == before[k := before[k].(participants := before[k].participants + 1)]
  {
  }

  const JoinPrefix := "You've joined \""
  const JoinSuffix := "\"! Check your email for details."

  /** The success notice for joining the event with this title. */
  function JoinNotice(title: string): Notice
  {
    Notice(Framed(JoinPrefix, title, JoinSuffix), Success)
  }

  /** The event list after a join, and the notice the join shows (if any). */
  datatype JoinOutcome = JoinOutcome(events: seq<Event>, notice: Option<Notice>)

  /**
   `joinEvent(id)`: the first event with this id gains one participant and a success
   notice naming it is shown; with no such event nothing changes and nothing is shown.
   */
  function JoinEvent(events: seq<Event>, id: int): (o: JoinOutcome)
    ensures o.notice.Some? <==> HasId(events, id)
    ensures !HasId(events, id) ==> o.events == events
    ensures forall k :: FirstWithId(events, id, k) ==>
              JoinedAt(events, o.events, k) && o.notice == Some(JoinNotice(events[k].title))
  {
    match FindEvent(events, id)
    case None => JoinOutcome(events, None)
    case Some(k) =>
      var e := events[k];
      JoinOutcome(events[k := e.(participants := e.participants + 1)], Some(JoinNotice(e.title)))
  }

  /** The sum of all participant counts. */
  function TotalParticipants(events: seq<Event>): int
    decreases |events|
  {
    if |events| == 0 then 0 else events[0].participants + TotalParticipants(events[1..])
  }

  /** Replacing one event changes the total by the difference in its participant count. */
  lemma {:induction false} TotalAfterUpdate(events: seq<Event>, k: int, e: Event)
    requires 0 <= k < |events|
    ensures TotalParticipants(events[k := e]) == TotalParticipants(events) - events[k].participants + e.participants
    decreases |events|
  {
    if k > 0 {
      assert events[k := e][1..] == events[1..][k - 1 := e];
      TotalAfterUpdate(events[1..], k - 1, e);
    } else {
      assert events[k := e][1..] == events[1..];
    }
  }

  /** Joining adds exactly one participant overall when the id exists, and none otherwise. */
  lemma JoinAddsOne(events: seq<Event>, id: int)
    ensures TotalParticipants(JoinEvent(events, id).events) ==
              TotalParticipants(events) + (if HasId(events, id) then 1 else 0)
  {
    var r := FindEvent(events, id);
    if r.Some? {
      var k := r.value;
      var e := events[k].(participants := events[k].participants + 1);
      JoinedAtIsUpdate(events, JoinEvent(events, id).events, k);
      TotalAfterUpdate(events, k, e);
    } else {
      assert JoinEvent(events, id).events == events;
    }
  }

  /**
   Joining keeps the list's length, order and ids, never lowers a count, and so keeps
   ids distinct.
   */
  lemma JoinPreservesShape(events: seq<Event>, id: int)
    ensures var after := JoinEvent(events, id).events;
      && |after| == |events|
      && (forall j :: 0 <= j < |events| ==> after[j].id == events[j].id && after[j].title == events[j].title)
      && (forall j :: 0 <= j < |events| ==> after[j].participants >= events[j].participants)
      && (DistinctIds(events) ==> DistinctIds(after))
  {
    var r := FindEvent(events, id);
    if r.Some? {
      assert JoinedAt(events, JoinEvent(events, id).events, r.value);
    }
  }

  /** With distinct ids, joining by an event's id changes exactly that event. */
  lemma JoinByIdOfEvent(events: seq<Event>, k: int)
    requires DistinctIds(events) && 0 <= k < |events|
    ensures JoinedAt(events, JoinEvent(events, events[k].id).events, k)
  {
    assert FirstWithId(events, events[k].id, k);
  }

  /** The join notice quotes the event's title verbatim. */
  lemma JoinNoticeNamesEvent(events: seq<Event>, id: int)
    requires HasId(events, id)
    ensures var n := JoinEvent(events, id).notice.value;
      && n.kind == Success
      && Unframed(n.text, JoinPrefix, JoinSuffix) == Some(events[FindEvent(events, id).value].title)
  {
    var k := FindEvent(events, id).value;
    FramedRoundTrip(JoinPrefix, events[k].title, JoinSuffix);
  }
}

=== FILE: notice.dfy ===
/** The notices `showMessage(message, type)` appends to the message stack. */
module Notices {
  import opened Optional

  /**
   The `type` argument, which selects the notice's style. `Error` is listed for
   completeness: its only use is the weather-failure message of `initializeWeather`,
   which is not part of this model.
   */
  datatype Kind = Info | Success | Error

  datatype Notice = Notice(text: string, kind: Kind)

  /** `prefix + body + suffix`, the shape of every notice that quotes user data. */
  function Framed(prefix: string, body: string, suffix: string): (m: string)
    ensures |m| == |prefix| + |body| + |suffix|
    ensures m[..|prefix|] == prefix
    ensures m[|prefix|..|prefix| + |body|] == body
    ensures m[|prefix| + |body|..] == suffix
  {
    prefix + body + suffix
  }

  /** Recovers the body of a message with this frame; `None` if the message lacks the frame. */
  function Unframed(m: string, prefix: string, suffix: string): Option<string>
  {
    if |prefix| + |suffix| <= |m| && m[..|prefix|] == prefix && m[|m| - |suffix|..] == suffix then
      Some(m[|prefix|..|m| - |suffix|])
    else
      None
  }

  /** Framing and unframing are inverse: the body is carried verbatim. */
  lemma FramedRoundTrip(prefix: string, body: string, suffix: string)
    ensures Unframed(Framed(prefix, body, suffix), prefix, suffix) == Some(body)
  {
  }
}

=== FILE: option.dfy ===
/** An optional value: what JavaScript expresses with `undefined` or `null`. */
module Optional {

  datatype Option<+T> = None | Some(value: T)

}

=== FILE: simulation.dfy ===
/**
 The simulated weather reading of the simple front-end (js/app.js, `fetchWeatherData`).
 Each `Math.random()` draw is a parameter in [0, 1), taken in the order the object
 literal evaluates them: temperature, condition, wind speed, humidity.
 */
module Simulation {

  datatype Reading = Reading(temperature: int, condition: string, windSpeed: int, humidity: int)

  /** The condition texts the simulation picks from. */
  const Conditions: seq<string> := ["Sunny", "Partly Cloudy", "Overcast"]

  /** A value `Math.random()` can return. */
  predicate IsDraw(r: real)
  {
    0.0 <= r < 1.0
  }

  /** `Math.floor(r * span + base)` for a draw `r`: an integer in [base, base + span). */
  function Scaled(r: real, span: nat, base: int): (v: int)
    requires IsDraw(r) && span > 0
    ensures base <= v < base + span
  {
    assert r * span as real < span as real by { assert (1.0 - r) * span as real > 0.0; }
    (r * span as real + base as real).Floor
  }

  /** The reading `fetchWeatherData` resolves with, given its four draws. */
  function SimulatedReading(t: real, c: real, w: real, h: real): (reading: Reading)
    requires IsDraw(t) && IsDraw(c) && IsDraw(w) && IsDraw(h)
    ensures 18 <= reading.temperature <= 27
    ensures reading.condition in Conditions
    ensures 8 <= reading.windSpeed <= 23
    ensures 50 <= reading.humidity <= 79
  {
    Reading(Scaled(t, 10, 18), Conditions[Scaled(c, 3, 0)], Scaled(w, 16, 8), Scaled(h, 30, 50))
  }

  /** The draw `(v - base) / span` makes `Scaled` produce `v`: every value in the range occurs. */
  lemma ScaledReaches(v: int, span: nat, base: int)
    requires span > 0 && base <= v < base + span
    ensures IsDraw((v - base) as real / span as real)
    ensures Scaled((v - base) as real / span as real, span, base) == v
  {
    var r := (v - base) as real / span as real;
    assert r * span as real == (v - base) as real;
  }

  /**
   The ranges are exact: each temperature in [18, 27], each condition, each wind speed
   in [8, 23] and each humidity in [50, 79] is produced by some draws.
   */
  lemma EveryReadingReachable(temperature: int, k: int, windSpeed: int, humidity: int)
    requires 18 <= temperature <= 27 && 0 <= k < 3 && 8 <= windSpeed <= 23 && 50 <= humidity <= 79
    ensures exists t, c, w, h ::
              && IsDraw(t) && IsDraw(c) && IsDraw(w) && IsDraw(h)
              && SimulatedReading(t, c, w, h) == Reading(temperature, Conditions[k], windSpeed, humidity)
  {
    var t := (temperature - 18) as real / 10.0;
    var c := k as real / 3.0;
    var w := (windSpeed - 8) as real / 16.0;
    var h := (humidity - 50) as real / 30.0;
    ScaledReaches(temperature, 10, 18);
    ScaledReaches(k, 3, 0);
    ScaledReaches(windSpeed, 16, 8);
    ScaledReaches(humidity, 30, 50);
    assert SimulatedReading(t, c, w, h) == Reading(temperature, Conditions[k], windSpeed, humidity);
  }
}

=== FILE: text.dfy ===
/**
 The two string operations the classifiers are built from: `String.prototype.toLowerCase`
 (restricted to ASCII letters) and `String.prototype.includes`.
 */
module Text {

  /** Lower-cases one ASCII letter; every other character is left as it is. */
  function LowerChar(c: char): char
  {
    if 'A' <= c <= 'Z' then (c as int + 32) as char else c
  }

  /** `x` and `y` are the same character, or the upper- and lower-case forms of one ASCII letter. */
  predicate CaseVariant(x: char, y: char)
  {
    || x == y
    || ('A' <= x <= 'Z' && y as int == x as int + 32)
    || ('A' <= y <= 'Z' && x as int == y as int + 32)
  }

  /** An ASCII upper-case letter. */
  predicate IsUpper(c: char)
  {
    'A' <= c <= 'Z'
  }

  /**
   `s.toLowerCase()`, character by character: each character of the result is a case
   variant of the input's character at the same position, and none is upper-case.
   */
  function Lower(s: string): (r: string)
    ensures |r| == |s|
    ensures forall i :: 0 <= i < |s| ==> r[i] == LowerChar(s[i])
    ensures forall i :: 0 <= i < |s| ==> CaseVariant(s[i], r[i]) && !IsUpper(r[i])
  {
    seq(|s|, i requires 0 <= i < |s| => LowerChar(s[i]))
  }

  /** Two strings that differ only in the case of their ASCII letters. */
  predicate SameUpToCase(a: string, b: string)
  {
    |a| == |b| && forall i :: 0 <= i < |a| ==> CaseVariant(a[i], b[i])
  }

  /** `p` occurs in `s` starting at index `i`. */
  predicate OccursAt(s: string, p: string, i: int)
  {
    0 <= i && i + |p| <= |s| && s[i..i + |p|] == p
  }

  /** An occurrence in `s[1..]` is an occurrence in `s` one position later, and back. */
  lemma OccursAtTail(s: string, p: string, i: int)
    requires |s| > 0 && 0 <= i
    ensures OccursAt(s[1..], p, i) <==> OccursAt(s, p, i + 1)
  {
    if i + |p| <= |s| - 1 {
      assert s[1..][i..i + |p|] == s[i + 1..i + 1 + |p|];
    }
  }

  /**
   `s.includes(p)`: a left-to-right scan that stops at the first position where `p`
   is a prefix of the rest. It holds exactly when `p` occurs somewhere in `s`.
   */
  function Includes(s: string, p: string): (b: bool)
    ensures b <==> exists i :: OccursAt(s, p, i)
    decreases |s|
  {
    if |p| > |s| then
      false
    else if s[..|p|] == p then
      assert OccursAt(s, p, 0);
      true
    else
      var b := Includes(s[1..], p);
      assert b ==> exists i :: OccursAt(s, p, i) by {
        if b {
          var i :| OccursAt(s[1..], p, i);
          OccursAtTail(s, p, i);
        }
      }
      assert (exists i :: OccursAt(s, p, i)) ==> b by {
        if exists i :: OccursAt(s, p, i) {
          var i :| OccursAt(s, p, i);
          assert i != 0;
          OccursAtTail(s, p, i - 1);
        }
      }
      b
  }

  /** Strings that agree up to case lower-case to the same string, and conversely. */
  lemma SameUpToCaseLower(a: string, b: string)
    ensures SameUpToCase(a, b) <==> Lower(a) == Lower(b)
  {
    if Lower(a) == Lower(b) {
      assert forall i :: 0 <= i < |a| ==> Lower(a)[i] == Lower(b)[i];
    }
  }

  /**
   Containment is transitive: if `p` occurs in `s` and `q` occurs in `p` at offset `k`,
   then `q` occurs in `s`.
   */
  lemma IncludesTransitive(s: string, p: string, q: string, k: int)
    requires Includes(s, p)
    requires OccursAt(p, q, k)
    ensures Includes(s, q)
  {
    var i :| OccursAt(s, p, i);
    assert 0 <= k && k + |q| <= |p|;
    forall j | 0 <= j < |q|
      ensures s[i + k..i + k + |q|][j] == q[j]
    {
      assert s[i..i + |p|][k + j] == p[k + j];
      assert p[k..k + |q|][j] == p[k + j];
    }
    assert OccursAt(s, q, i + k);
  }

  /** A string that lacks one of the characters of `p` does not include `p`. */
  lemma MissingCharExcludes(s: string, p: string, j: int)
    requires 0 <= j < |p| && p[j] !in s
    ensures !Includes(s, p)
  {
    if Includes(s, p) {
      var i :| OccursAt(s, p, i);
    }
  }
}

=== FILE: weather.dfy ===
/**
 The weather widget's data and the decisions taken on it in the optimized front-end
 (js/app-optimized.js): the record built from the 24-hour forecast, the rounded
 current temperature, the emoji shown beside a condition text, and the beach-cleanup
 recommendation.
 */
module Weather {
  import opened Text
  import opened Optional

  /** A `{low, high}` pair as the weather service reports it. */
  datatype Range = Range(low: int, high: int)

  datatype Wind = Wind(speed: Range, direction: string)

  /** The already-parsed `general` block of the first 24-hour forecast item. */
  datatype General = General(temperature: Range, forecast: string, relativeHumidity: Range, wind: Wind)

  datatype Temperature = Temperature(current: int, low: int, high: int)

  /** The record `fetchCurrentWeather` returns (the pass-through `periods` list is not kept). */
  datatype CurrentWeather = CurrentWeather(
    temperature: Temperature,
    condition: string,
    humidity: Range,
    wind: Wind,
    updateTimestamp: string)

  /** One entry of the 4-day forecast. */
  datatype ForecastDay = ForecastDay(date: string, forecast: string, temperature: Range, humidity: Range, wind: Wind)

  // ---------------------------------------------------------------------------
  // Current temperature
  // ---------------------------------------------------------------------------

  /** JavaScript's `Math.round`: the nearest integer, a half rounded toward +infinity. */
  function JsRound(x: real): (n: int)
    ensures x - 0.5 < n as real <= x + 0.5
  {
    (x + 0.5).Floor
  }

  /**
   `Math.round((low + high) / 2)`: the midpoint of two integer bounds rounded half-up.
   Twice the result exceeds `low + high` by 0 or 1, so it is the ceiling of the exact
   midpoint, and it never leaves a non-empty range.
   */
  function RoundedMidpoint(low: int, high: int): (m: int)
    ensures m == (low + high + 1) / 2
    ensures 0 <= 2 * m - (low + high) <= 1
    ensures low <= high ==> low <= m <= high
  {
    var n := low + high;
    var q := (n + 1) / 2;
    var r := (n + 1) % 2;
    assert n as real / 2.0 + 0.5 == q as real + r as real / 2.0;
    JsRound(n as real / 2.0)
  }

  /** The current-weather record built from the forecast's `general` block. */
  function CurrentFromGeneral(g: General, updateTimestamp: string): (c: CurrentWeather)
    ensures c.temperature.low == g.temperature.low && c.temperature.high == g.temperature.high
    ensures 0 <= 2 * c.temperature.current - (c.temperature.low + c.temperature.high) <= 1
    ensures g.temperature.low <= g.temperature.high ==>
              c.temperature.low <= c.temperature.current <= c.temperature.high
    ensures c.condition == g.forecast && c.humidity == g.relativeHumidity && c.wind == g.wind
    ensures c.updateTimestamp == updateTimestamp
  {
    CurrentWeather(
      Temperature(RoundedMidpoint(g.temperature.low, g.temperature.high), g.temperature.low, g.temperature.high),
      g.forecast,
      g.relativeHumidity,
      g.wind,
      updateTimestamp)
  }

  // ---------------------------------------------------------------------------
  // Weather emoji
  // ---------------------------------------------------------------------------

  /** The six glyphs the widget can show beside a condition. */
  datatype Emoji = Storm | RainCloud | Cloud | SunBehindCloud | Sun | SunSmallCloud
  {
    function Glyph(): string
    {
      match this
      case Storm => "⛈️"
      case RainCloud => "🌧️"
      case Cloud => "☁️"
      case SunBehindCloud => "⛅"
      case Sun => "☀️"
      case SunSmallCloud => "🌤️"
    }
  }

  /** The test the classifier applies to the lower-cased condition before answering `e`. */
  predicate EmojiGuard(e: Emoji, c: string)
  {
    match e
    case Storm => Includes(c, "thunder")
    case RainCloud => Includes(c, "rain") || Includes(c, "shower")
    case Cloud => Includes(c, "cloudy")
    case SunBehindCloud => Includes(c, "partly cloudy")
    case Sun => Includes(c, "sunny") || Includes(c, "clear")
    case SunSmallCloud => true
  }

  /** Position of each test in the classifier as written: earlier tests win. */
  function EmojiRank(e: Emoji): nat
  {
    match e
    case Storm => 0
    case RainCloud => 1
    case Cloud => 2
    case SunBehindCloud => 3
    case Sun => 4
    case SunSmallCloud => 5
  }

  /** `e` is the answer of an ordered first-match rule list ranked by `rank`. */
  predicate FirstMatch(e: Emoji, c: string, rank: Emoji -> nat)
  {
    EmojiGuard(e, c) && forall e' :: rank(e') < rank(e) ==> !EmojiGuard(e', c)
  }

  /**
   `getWeatherEmoji` as written: the first test that the lower-cased condition passes
   decides the emoji.
   */
  function WeatherEmoji(condition: string): (e: Emoji)
    ensures FirstMatch(e, Lower(condition), EmojiRank)
  {
    var c := Lower(condition);
    if Includes(c, "thunder") then Storm
    else if Includes(c, "rain") || Includes(c, "shower") then RainCloud
    else if Includes(c, "cloudy") then Cloud
    else if Includes(c, "partly cloudy") then SunBehindCloud
    else if Includes(c, "sunny") || Includes(c, "clear") then Sun
    else SunSmallCloud
  }

  /** Ranks that give every emoji its own position make the first match unique. */
  lemma FirstMatchUnique(e1: Emoji, e2: Emoji, c: string, rank: Emoji -> nat)
    requires forall a, b :: a != b ==> rank(a) != rank(b)
    requires FirstMatch(e1, c, rank) && FirstMatch(e2, c, rank)
    ensures e1 == e2
  {
  }

  /** The classifier answers exactly the first emoji whose test the lower-cased condition passes. */
  lemma WeatherEmojiIsFirstMatch(condition: string, e: Emoji)
    ensures WeatherEmoji(condition) == e <==> FirstMatch(e, Lower(condition), EmojiRank)
  {
    if FirstMatch(e, Lower(condition), EmojiRank) {
      FirstMatchUnique(e, WeatherEmoji(condition), Lower(condition), EmojiRank);
    }
  }

  /** "partly cloudy" contains "cloudy" at offset 7. */
  lemma PartlyCloudyContainsCloudy(c: string)
    requires Includes(c, "partly cloudy")
    ensures Includes(c, "cloudy")
  {
    assert OccursAt("partly cloudy", "cloudy", 7);
    IncludesTransitive(c, "partly cloudy", "cloudy", 7);
  }

  /**
   The partly-cloudy glyph is dead code: a condition that reaches its test has already
   failed the "cloudy" test, and so cannot contain "partly cloudy".
   */
  lemma PartlyCloudyUnreachable(condition: string)
    ensures WeatherEmoji(condition) != SunBehindCloud
  {
    var c := Lower(condition);
    if Includes(c, "partly cloudy") {
      PartlyCloudyContainsCloudy(c);
    }
  }

  /** The test order the emoji classifier evidently intends: "partly cloudy" before "cloudy". */
  function IntendedEmojiRank(e: Emoji): nat
  {
    match e
    case Storm => 0
    case RainCloud => 1
    case SunBehindCloud => 2
    case Cloud => 3
    case Sun => 4
    case SunSmallCloud => 5
  }

  /** The emoji classifier with the "partly cloudy" test moved ahead of the "cloudy" test. */
  function IntendedWeatherEmoji(condition: string): (e: Emoji)
    ensures FirstMatch(e, Lower(condition), IntendedEmojiRank)
  {
    var c := Lower(condition);
    if Includes(c, "thunder") then Storm
    else if Includes(c, "rain") || Includes(c, "shower") then RainCloud
    else if Includes(c, "partly cloudy") then SunBehindCloud
    else if Includes(c, "cloudy") then Cloud
    else if Includes(c, "sunny") || Includes(c, "clear") then Sun
    else SunSmallCloud
  }

  /**
   With the intended order the partly-cloudy glyph is shown exactly for a condition that
   mentions "partly cloudy" and neither thunder nor rain; on every other condition the
   intended classifier agrees with the one as written.
   */
  lemma IntendedWeatherEmojiShowsPartlyCloudy(condition: string)
    ensures var c := Lower(condition);
      IntendedWeatherEmoji(condition) == SunBehindCloud <==>
        Includes(c, "partly cloudy") && !Includes(c, "thunder") && !Includes(c, "rain") && !Includes(c, "shower")
    ensures !Includes(Lower(condition), "partly cloudy") ==> IntendedWeatherEmoji(condition) == WeatherEmoji(condition)
    ensures IntendedWeatherEmoji(condition) != SunBehindCloud ==> IntendedWeatherEmoji(condition) == WeatherEmoji(condition)
  {
  }

  /** The condition text "Partly Cloudy" is shown with the plain cloud as written, with ⛅ as intended. */
  lemma PartlyCloudyExample()
    ensures WeatherEmoji("Partly Cloudy") == Cloud
    ensures IntendedWeatherEmoji("Partly Cloudy") == SunBehindCloud
  {
    LowerPartlyCloudy();
    PartlyCloudyTests();
  }

  lemma LowerPartlyCloudy()
    ensures Lower("Partly Cloudy") == "partly cloudy"
  {
  }

  lemma PartlyCloudyTests()
    ensures Includes("partly cloudy", "partly cloudy") && Includes("partly cloudy", "cloudy")
    ensures !Includes("partly cloudy", "thunder")
    ensures !Includes("partly cloudy", "rain") && !Includes("partly cloudy", "shower")
  {
    PartlyCloudyMatches();
    PartlyCloudyNoThunder();
    PartlyCloudyNoRain();
    PartlyCloudyNoShower();
  }

  lemma PartlyCloudyMatches()
    ensures Includes("partly cloudy", "partly cloudy") && Includes("partly cloudy", "cloudy")
  {
    assert OccursAt("partly cloudy", "partly cloudy", 0);
    assert OccursAt("partly cloudy", "cloudy", 7);
  }

  lemma PartlyCloudyNoThunder()
    ensures !Includes("partly cloudy", "thunder")
  {
    MissingCharExcludes("partly cloudy", "thunder", 1);
  }

  lemma PartlyCloudyNoRain()
    ensures !Includes("partly cloudy", "rain")
  {
    MissingCharExcludes("partly cloudy", "rain", 2);
  }

  lemma PartlyCloudyNoShower()
    ensures !Includes("partly cloudy", "shower")
  {
    MissingCharExcludes("partly cloudy", "shower", 0);
  }

  // ---------------------------------------------------------------------------
  // Beach-cleanup recommendation
  // ---------------------------------------------------------------------------

  /** Wind speeds (km/h) strictly above this make the recommendation warn about wind. */
  const StrongWind := 25

  /** The five recommendations the widget can give. */
  datatype Advice = StormWarning | RainCaution | WindNote | PerfectWeather | GoodConditions
  {
    function Message(): string
    {
      match this
      case StormWarning =>
        "⚠️ Not ideal for beach cleanup due to thunderstorms. Stay safe and wait for better weather!"
      case RainCaution =>
        "🌧️ Light rain may make cleanup challenging. Consider rescheduling or bringing waterproof gear."
      case WindNote =>
        "💨 Strong winds today. Great for cleanup but bring secure containers for collected trash."
      case PerfectWeather =>
        "☀️ Perfect weather for beach cleanup! Don't forget sunscreen and plenty of water."
      case GoodConditions =>
        "🌤️ Good conditions for beach cleanup. Check the 4-day forecast to plan your next cleanup event."
    }
  }

  /** Every text the recommendation can show. */
  const AdviceMessages: set<string> := {
    StormWarning.Message(), RainCaution.Message(), WindNote.Message(),
    PerfectWeather.Message(), GoodConditions.Message()
  }

  /** The test on the lower-cased condition `c` and the high wind speed that leads to `a`. */
  predicate AdviceGuard(a: Advice, c: string, windHigh: int)
  {
    match a
    case StormWarning => Includes(c, "thunder") || Includes(c, "heavy rain")
    case RainCaution => Includes(c, "rain") || Includes(c, "shower")
    case WindNote => windHigh > StrongWind
    case PerfectWeather => Includes(c, "sunny") || Includes(c, "partly cloudy")
    case GoodConditions => true
  }

  /** Position of each test in the if-else chain: earlier tests win. */
  function AdviceRank(a: Advice): nat
  {
    match a
    case StormWarning => 0
    case RainCaution => 1
    case WindNote => 2
    case PerfectWeather => 3
    case GoodConditions => 4
  }

  /** `a` is the first recommendation, in rank order, whose test passes. */
  predicate FirstAdvice(a: Advice, c: string, windHigh: int)
  {
    AdviceGuard(a, c, windHigh) && forall b :: AdviceRank(b) < AdviceRank(a) ==> !AdviceGuard(b, c, windHigh)
  }

  /**
   `getBeachRecommendation(current, forecast)`: the first test, in the order storm, rain,
   wind, fair weather, that the lower-cased condition and the high wind speed pass.
   The forecast is accepted and never consulted.
   */
  function Advise(current: CurrentWeather, forecast: seq<ForecastDay>): (a: Advice)
    ensures FirstAdvice(a, Lower(current.condition), current.wind.speed.high)
  {
    var c := Lower(current.condition);
    if Includes(c, "thunder") || Includes(c, "heavy rain") then StormWarning
    else if Includes(c, "rain") || Includes(c, "shower") then RainCaution
    else if current.wind.speed.high > StrongWind then WindNote
    else if Includes(c, "sunny") || Includes(c, "partly cloudy") then PerfectWeather
    else GoodConditions
  }

  /** The text `getBeachRecommendation` returns: always one of the five fixed messages. */
  function BeachRecommendation(current: CurrentWeather, forecast: seq<ForecastDay>): (m: string)
    ensures m in AdviceMessages
    ensures exists a :: FirstAdvice(a, Lower(current.condition), current.wind.speed.high) && m == a.Message()
  {
    Advise(current, forecast).Message()
  }

  /** Reads a recommendation text back; `None` for any text the widget never shows. */
  function AdviceFromMessage(m: string): Option<Advice>
  {
    if m == StormWarning.Message() then Some(StormWarning)
    else if m == RainCaution.Message() then Some(RainCaution)
    else if m == WindNote.Message() then Some(WindNote)
    else if m == PerfectWeather.Message() then Some(PerfectWeather)
    else if m == GoodConditions.Message() then Some(GoodConditions)
    else None
  }

  /** Each message reads back as the recommendation that produced it. */
  lemma AdviceMessageRoundTrip(a: Advice)
    ensures AdviceFromMessage(a.Message()) == Some(a)
  {
    StormLength();
    RainLength();
    WindLength();
    PerfectLength();
    GoodLength();
    match a
    case StormWarning =>
    case RainCaution =>
    case WindNote =>
    case PerfectWeather =>
    case GoodConditions =>
  }

  /** The five messages are pairwise different, so the text identifies the recommendation. */
  lemma MessagesDistinct(a: Advice, b: Advice)
    ensures a.Message() == b.Message() <==> a == b
  {
    if a.Message() == b.Message() {
      var m := a.Message();
      AdviceMessageRoundTrip(a);
      AdviceMessageRoundTrip(b);
      assert Some(a) == AdviceFromMessage(m) == Some(b);
    }
  }

  lemma StormLength() ensures |StormWarning.Message()| == 91 {}
  lemma RainLength() ensures |RainCaution.Message()| == 94 {}
  lemma WindLength() ensures |WindNote.Message()| == 88 {}
  lemma PerfectLength() ensures |PerfectWeather.Message()| == 81 {}
  lemma GoodLength() ensures |GoodConditions.Message()| == 95 {}

  /** The recommendation is exactly the first one whose test passes. */
  lemma AdviseIsFirstMatch(current: CurrentWeather, forecast: seq<ForecastDay>, a: Advice)
    ensures Advise(current, forecast) == a <==> FirstAdvice(a, Lower(current.condition), current.wind.speed.high)
  {
  }

  /** Thunder or heavy rain gives the storm warning whatever the wind. */
  lemma StormWarningWhateverWind(current: CurrentWeather, forecast: seq<ForecastDay>)
    requires Includes(Lower(current.condition), "thunder") || Includes(Lower(current.condition), "heavy rain")
    ensures Advise(current, forecast) == StormWarning
  {
  }

  /** Rain or showers (without thunder or heavy rain) give the rain caution, even in strong wind. */
  lemma RainOutranksWind(current: CurrentWeather, forecast: seq<ForecastDay>)
    requires var c := Lower(current.condition);
      !Includes(c, "thunder") && !Includes(c, "heavy rain") && (Includes(c, "rain") || Includes(c, "shower"))
    ensures Advise(current, forecast) == RainCaution
  {
  }

  /**
   Without rain, strong wind decides before the sky does; with wind at or below the
   threshold, "sunny" or "partly cloudy" gives the fair-weather message and anything
   else the default.
   */
  lemma DryWeatherAdvice(current: CurrentWeather, forecast: seq<ForecastDay>)
    requires var c := Lower(current.condition);
      !Includes(c, "thunder") && !Includes(c, "rain") && !Includes(c, "shower")
    ensures current.wind.speed.high > StrongWind ==> Advise(current, forecast) == WindNote
    ensures current.wind.speed.high <= StrongWind ==>
      (Advise(current, forecast) == PerfectWeather <==>
        Includes(Lower(current.condition), "sunny") || Includes(Lower(current.condition), "partly cloudy"))
    ensures current.wind.speed.high <= StrongWind ==> Advise(current, forecast) != WindNote
  {
    var c := Lower(current.condition);
    if Includes(c, "heavy rain") {
      HeavyRainContainsRain(c);
    }
  }

  /** "heavy rain" contains "rain" at offset 6, so the storm test's second half implies the rain test. */
  lemma HeavyRainContainsRain(c: string)
    requires Includes(c, "heavy rain")
    ensures Includes(c, "rain")
  {
    assert OccursAt("heavy rain", "rain", 6);
    IncludesTransitive(c, "heavy rain", "rain", 6);
  }

  /** The forecast argument never influences the recommendation. */
  lemma AdviseIgnoresForecast(current: CurrentWeather, f1: seq<ForecastDay>, f2: seq<ForecastDay>)
    ensures Advise(current, f1) == Advise(current, f2)
  {
  }

  /**
   The recommendation depends only on the condition up to letter case and on the high
   wind speed: temperatures, humidity, direction, low wind and timestamp do not matter.
   */
  lemma AdviseIgnoresCase(c1: CurrentWeather, c2: CurrentWeather, forecast: seq<ForecastDay>)
    requires SameUpToCase(c1.condition, c2.condition)
    requires c1.wind.speed.high == c2.wind.speed.high
    ensures Advise(c1, forecast) == Advise(c2, forecast)
  {
    SameUpToCaseLower(c1.condition, c2.condition);
  }

  /** A "Thunderstorms" condition gives the storm warning, whatever the wind. */
  lemma ThunderstormsExample(current: CurrentWeather, forecast: seq<ForecastDay>)
    requires current.condition == "Thunderstorms"
    ensures Advise(current, forecast) == StormWarning
  {
    assert Lower("Thunderstorms") == "thunderstorms";
    assert OccursAt("thunderstorms", "thunder", 0);
  }

  /** A "Sunny" condition with wind above the threshold gets the wind note, not the fair-weather message. */
  lemma SunnyButWindyExample(current: CurrentWeather, forecast: seq<ForecastDay>)
    requires current.condition == "Sunny" && current.wind.speed.high > StrongWind
    ensures Advise(current, forecast) == WindNote
  {
    assert Lower("Sunny") == "sunny";
    SunnyIsDry();
  }

  /** "sunny" mentions neither thunder nor any kind of rain. */
  lemma SunnyIsDry()
    ensures !Includes("sunny", "thunder") && !Includes("sunny", "heavy rain")
    ensures !Includes("sunny", "rain") && !Includes("sunny", "shower")
  {
    MissingCharExcludes("sunny", "thunder", 0);
    MissingCharExcludes("sunny", "heavy rain", 0);
    MissingCharExcludes("sunny", "rain", 0);
    MissingCharExcludes("sunny", "shower", 1);
  }
}
